=== FILE: README.md ===
# Folklore rhythm trainer — a Dafny model of its core

The trainer shows a score of random one-bar rhythmic cells in 3/4. It plays a
metronome at 120 beats per minute with a one-bar count-in, and it redraws
the score every `barCount` bars while playing. This project models the
discrete logic behind that:

- the cell libraries: `options` in `src/App.jsx` and the `useOptions` hook;
- `processNote`, `selectRandomBar` and `selectRandomBars`;
- `generateRandomBar`, a generator that nothing in `src/App.jsx` calls;
- the tempo constants and the metronome schedule;
- the count-in;
- the start/stop bookkeeping of interval ids;
- the placement of bars on the drawing surface;
- the two helpers of `src/utils.js`.

Durations are counted in whole eighth notes. VexFlow's `"q"` and `"4"` are 2
eighths and `"8"` is 1, so a 3/4 bar is 6 eighths. Times are whole
milliseconds: 500 per beat and 1500 per bar, which equal the source's
floating-point values exactly (`Metronome.TimingIsExact`). `Math.random()`
becomes an explicit draw in `[0, 1)`. Timers become events of a state
machine.

Files and modules:

- `wrappers.dfy` (`Wrappers`): `Option` and `Result`.
- `notation.dfy` (`Notation`): placeholders, duration codes, notes and bar lengths.
- `app_options.dfy` (`AppOptions`) and `use_options.dfy` (`UseOptions`): the two cell libraries.
- `bar_selector.dfy` (`BarSelector`): `processNote`, `selectRandomBar` and `selectRandomBars`.
- `bar_generator.dfy` (`BarGenerator`): `generateRandomBar`.
- `metronome.dfy` (`Metronome`): the tempo constants, `playMethronomeBar` and the repeated click track.
- `precount.dfy` (`PreCount`): the count-in effect.
- `transport.dfy` (`Transport`): `onStart`, `onStop`, the deferred regenerate interval and the score.
- `layout.dfy` (`Layout`): the row and column placement arithmetic of the score effect.
- `utils.dfy` (`Utils`): `repeat` and `formatChacareraOption`.

This version of the trainer has no endings, look-ahead hints, songs, mute,
bar cursor or configurable tempo, so the model has none.

## Model

| member | source | states |
|---|---|---|
| `AppOptions.Options` | src/App.jsx:20-106 | The library holds 9 cells. Each fills exactly one 3/4 bar (6 eighths), has 3 to 5 events, and can hold a rest only as its first event. |
| `UseOptions.Options` | src/useOptions.js:8-113 | The hook's catalogue is non-empty (10 cells). Each cell fills exactly one 3/4 bar, has 3 to 5 events, and can hold a rest only first. The sixteenth-note cells are commented out, so they are not in the catalogue. |
| `UseOptions.VoicingsDistinct` | src/useOptions.js:4-6 | In both files the keys of `g`, `e` and `rest` are pairwise distinct. So a key identifies its placeholder. |
| `UseOptions.ExtendsAppOptions` | src/useOptions.js:9-100 | The first nine cells of the hook are the nine cells of `src/App.jsx`. The tenth cell opens with a rest. |
| `BarSelector.ProcessNote` | src/App.jsx:150-159 | The note keeps the template's key and duration. It is tagged as a rest if and only if its placeholder is `rest`. |
| `BarSelector.ProcessNoteRoundTrip` | src/App.jsx:150-159 | `processNote` loses nothing: the template can be recovered from the note. |
| `BarSelector.RestTagMatchesKey` | src/App.jsx:155 | For library notes, the rest tag agrees with the key text `"g/4"`: no other placeholder shares the rest key. |
| `BarSelector.ProcessCell` | src/App.jsx:162-164 | Mapping `processNote` over a cell keeps its length and each duration, so the bar has the same length in eighths. |
| `BarSelector.PickIndex` | src/App.jsx:162 | `Math.floor(r * n)` is a valid index below `n` for every draw `r` in `[0, 1)`. |
| `BarSelector.PickIndexUniform` | src/App.jsx:162 | Index `i` is picked exactly for draws in `[i/n, (i+1)/n)`. Every cell can be drawn, and each gets an equal share of the draws. |
| `BarSelector.SelectRandomBar` | src/App.jsx:161-165 | The result is some library cell after `processNote`. It fills 6 eighths, has 3 to 5 notes, and has no rest after the first note. |
| `BarSelector.SelectRandomBarPicks` | src/App.jsx:161-165 | A draw in `[i/9, (i+1)/9)` yields exactly cell `i` of the library, processed. So the draw decides the cell, and each cell is drawn with equal chance. |
| `BarSelector.SelectRandomBars` | src/App.jsx:175-177 | The score has exactly `barCount` bars. Bar `k` comes from the `k`-th draw, and each bar is a library bar of 6 eighths. |
| `BarGenerator.GenerateRandomBar` | src/App.jsx:108-121 | The loop ends for every sequence of draws. It emits only quarter and eighth notes on `g/4`, and they total exactly 4 beats (8 eighths). Note `k` is decided by the `k`-th call of `Math.random()`: while a quarter still fits, the note is a quarter exactly when that draw exceeds 0.5. A note starting at 7 eighths is an eighth and uses no draw, because `&&` short-circuits. All draws above 0.5 give four quarters; none gives eight eighths. |
| `Metronome.TimingIsExact` | src/App.jsx:15-18 | In integer milliseconds, `interval` is 500 and `barDuration` is 1500. Both equal the floating-point formulas exactly. |
| `Metronome.MetronomeBar` | src/App.jsx:143-148 | A bar has `beatsPerBar` clicks. Their offsets strictly increase, only the first is accented, and every offset is below the repeat period `interval * beatsPerBar`. |
| `Metronome.ClickTrack` | src/App.jsx:246-247 | The first `bars` bars of the metronome, the first played at once and the rest by `setInterval`, hold `beatsPerBar` clicks per bar, and every click falls before the end of the last bar. |
| `Metronome.ClickTrackIsSteadyPulse` | src/App.jsx:246-247 | The first bar and its `setInterval` repeats join into one steady pulse. Click `n` sounds at `n * interval` and is accented exactly when `n` is a multiple of `beatsPerBar`. |
| `PreCount.React` | src/App.jsx:258-269 | A falsy value does nothing. A value above `beatsPerBar` is cleared with nothing scheduled. Any other value is kept and one timeout is scheduled. |
| `PreCount.Start` | src/App.jsx:245 | Starting shows 1 with one beat timeout pending. |
| `PreCount.Beat` | src/App.jsx:264-266 | A beat adds exactly 1 while the count is below `beatsPerBar`. It clears the count when it passes `beatsPerBar`, and it does nothing when no timeout is pending. |
| `PreCount.After` | src/App.jsx:258-269 | After any number of beats the count-in is in a valid state: a count from 1 to `beatsPerBar` with its timeout pending, or cleared with nothing pending. Once a beat has passed, a pending count is above 1. |
| `PreCount.CountInTrace` | src/App.jsx:258-269 | After `k` beats the count shows `k + 1` while `k < beatsPerBar`. It is cleared for good after that, so it never passes `beatsPerBar + 1`. |
| `PreCount.CountInLastsOneBar` | src/App.jsx:244-247 | The count-in is cleared after `beatsPerBar * interval` ms, which equals `barDuration`. |
| `Transport.Init` | src/App.jsx:169-181 | After mounting, the trainer is stopped with no interval ids and no timers. Its score has `barCount` bars. |
| `Transport.Cancel` | src/App.jsx:253 | Clearing a list of ids keeps exactly the intervals whose id is not in the list. Clearing every running id leaves none. |
| `Transport.Step` | src/App.jsx:237-256 | Start registers the metronome interval, with period `interval * beatsPerBar`, and appends its id to `intervalIds`. It also arms one more deferred timeout and leaves the score alone. Stop leaves the trainer stopped with no ids and keeps exactly the intervals not listed. Stop does not touch the pending deferred timeouts. The deferred timeout fires whether or not the trainer is playing, and registers a regenerate interval of period `barDuration * barCount`. The score changes only through a running regenerate interval or "Generar Nuevo" while stopped, and always to `barCount` bars. A redraw touches nothing but the score. |
| `Transport.StepKeepsBookkeeping` | src/App.jsx:237-256 | Every event keeps `intervalIds` equal to the running intervals, with the metronome period of one bar and the regenerate period `barDuration * barCount`. After Stop, `playing` is false and `intervalIds` is empty. Only the deferred timeout creates a regenerate interval. |
| `Transport.StopBeforeArmLeaks` | src/App.jsx:239-242 | For any `barCount`: Start, Stop, then the deferred timeout firing leaves the trainer stopped. Yet exactly one interval runs: a regenerate interval with period `barDuration * barCount`, whose id is the one in `intervalIds`. That interval still redraws the score. |
| `Transport.FixedStep` | src/App.jsx:252-256 | The corrected machine is the source's machine on every event except Stop. On Stop it differs only in that no deferred timeout stays pending. |
| `Transport.FixedStepKeepsInvariant` | src/App.jsx:252-256 | With Stop also cancelling the deferred timeout, a stopped trainer has no interval, no id and no pending timeout. While playing there is exactly one metronome interval, and exactly one deferred timeout or regenerate interval. The score changes while stopped only through "Generar Nuevo". |
| `Transport.FixedRunStaysQuiet` | src/App.jsx:237-256 | With Stop also cancelling the deferred timeout, any order of button presses and timer firings from mounting keeps that invariant. A stopped trainer never runs a timer. |
| `Layout.TotalSystems` | src/App.jsx:198 | The system count is the ceiling of `n / 4`. It holds all `n` bars with no empty system. |
| `Layout.Place` | src/App.jsx:202-207 | Bar `i` sits in system `i / 4`, column `i % 4`. Only bar 0 carries the tempo, clef and time signature. |
| `Layout.PlaceRoundTrip` | src/App.jsx:203-207 | A bar's index can be read back from its coordinates, so no two bars share a position. |
| `Layout.PlaceReadingOrder` | src/App.jsx:203-207 | A later bar is on a lower system, or on the same system further right. |
| `Layout.Render` | src/App.jsx:183-207 | An empty score draws nothing. Otherwise the surface is resized to `systemWidth + 2 * startX` (900) wide and `startY + totalSystems * systemHeight` high. Bar `i` is placed by `Place(i)` and lies inside the surface. The last system reaches its bottom edge. |
| `Utils.Repeat` | src/utils.js:1-3 | For an integer `times`, `repeat(arr, times)` has `times + 1` elements, each equal to `arr`. A negative or too-large length throws a `RangeError`, and only that does. |
| `Utils.RepeatZero` | src/utils.js:2 | `repeat(arr, 0)` is exactly one copy of `arr`. |
| `Utils.SpaceUnderscores` | src/utils.js:6 | Every underscore becomes a space and every other character is kept. The length is kept. |
| `Utils.FormatChacareraOption` | src/utils.js:5-7 | The length is kept, and the empty string maps to the empty string. The first character is upper-cased. Every later character is kept, except that underscores become spaces, so no later character is an underscore. |
| `Utils.FormatIdempotent` | src/utils.js:6 | Formatting twice is the same as formatting once. |

## Left out

- Drawing with VexFlow (staves, clef, notes, beams, `Formatter`) is not modelled. Only the integer placement of bars is.
- `playClick` and the Web Audio oscillator and gain are not modelled: they are an audio side effect with floating-point frequencies and ramps.
- React is not modelled (`useState`, `useEffect`, `useCallback`, `useMemo`, JSX). Its state is modelled as plain values, and its effects as functions run after each change.
- Real `setTimeout`, `setInterval` and `Math.random` are left out. They are replaced by events and by draws passed in as parameters.
- Pitch placeholders are one-element arrays in the source. Here a key is the string inside, and the reference comparison of `processNote` is a comparison of placeholders.
- BarSelector.PickIndex: treats `Math.random() * n` as an exact real product. Floating-point rounding is not modelled.
- Utils.Repeat: `times` is modelled as an integer. A fractional count (`new Array(2.5)` also throws a `RangeError`) or a non-numeric count is not modelled.
- Utils.FormatChacareraOption: requires ASCII input. Full Unicode upper-casing can change the length of a string and is not modelled.
- PreCount.Beat: models one pending count-in timeout. `onStop` does not cancel that timeout, so stopping and restarting within the count-in is not modelled. Restarting while the count shows 1 leaves `preCount` unchanged, so the effect does not run again: only the old chain goes on, and the count-in ends early. Restarting while it shows 2 or 3 runs two timeout chains, and one of them can compute `"" + 1` on the cleared string.
- Transport: does not track the two one-shot beat clicks that `playMethronomeBar` schedules. `onStop` does not cancel them either.
- Transport: pressing a button that is not shown (Start while playing, Stop or "Generar Nuevo" in the wrong state) is modelled as doing nothing.
- `barCount` is the constant initial state 8 in the source, because its setter is never called. The model takes it as a parameter.
- `generateRandomBar` fills four beats, not one 3/4 bar. Nothing in `src/App.jsx` calls it, so its bars never reach the score.

## Findings

| source | as written | input that shows it | evidently intended | confidence | as-written member | corrected member |
|---|---|---|---|---|---|---|
| src/App.jsx:237-256 | `onStop` clears only the intervals listed in `intervalIds`. The `barDuration` timeout armed by `onStart` stays pending. | Start, then Stop within 1500 ms. The timeout fires after the stop. It registers the regenerate interval, which redraws the score every 12000 ms while nothing plays. | Stop also cancels the pending timeout, so a stopped trainer runs no timers. | medium, not executed | `Transport.StopBeforeArmLeaks` | `Transport.FixedRunStaysQuiet` |

=== FILE: app_options.dfy ===
/**
 The cell library defined at the top of `src/App.jsx`: nine one-bar cells in
 3/4, written with the placeholders `g = ["b/4"]`, `e = ["e/4"]` and
 `rest = ["g/4"]`.
 */
module AppOptions {
  import opened Notation

  /** Keys of the placeholders in `src/App.jsx`. */
  const AppVoicing: Voicing := Voicing("b/4", "e/4", "g/4")

  /** The `options` array, in source order: a non-empty library of cells,
      each of which fills one 3/4 bar. */
  function Options(): (cells: seq<Cell>)
    ensures |cells| == 9
    ensures forall i :: 0 <= i < |cells| ==> FillsBar(cells[i])
    ensures forall i :: 0 <= i < |cells| ==> 3 <= |cells[i]| <= 5
    ensures forall i :: 0 <= i < |cells| ==> RestsOnlyFirst(cells[i])
  {
    [
      // base
      [N(G, Q), N(E, Eight), N(G, Eight), N(E, Q)],
      [N(G, Q), N(E, Q), N(E, Q)],
      // two eighths at the start
      [N(G, Eight), N(G, Eight), N(E, Eight), N(G, Eight), N(E, Q)],
      [N(G, Eight), N(E, Eight), N(E, Eight), N(G, Eight), N(E, Q)],
      // two eighths at the end
      [N(G, Q), N(E, Eight), N(G, Eight), N(E, Eight), N(E, Eight)],
      [N(G, Q), N(E, Eight), N(G, Eight), N(E, Eight), N(G, Eight)],
      // rest at the start
      [N(Rest, Eight), N(G, Eight), N(E, Eight), N(G, Eight), N(E, Q)],
      [N(Rest, Eight), N(E, Eight), N(E, Eight), N(G, Eight), N(E, Q)],
      // variations
      [N(G, Four), N(E, Four), N(E, Eight), N(G, Eight)]
    ]
  }
}

=== FILE: bar_generator.dfy ===
/**
 `generateRandomBar` in `src/App.jsx`: a generator that nothing in
 `src/App.jsx` calls, which fills four quarter-note beats (eight eighths)
 with quarter and eighth notes on `g/4`.

 The `k`-th call of `Math.random()` is `draw(k)`. The source only draws when
 at least a quarter note still fits, because `&&` short-circuits, so the
 draws used are counted.
 */
module BarGenerator {
  import opened Notation

  /** The length the generator fills: four beats, in eighths. */
  const GeneratedEighths: nat := 4 * EighthsPerBeat

  /** The only two notes the generator emits. */
  const QuarterNote: Note := Note("g/4", Q, false)
  const EighthNote: Note := Note("g/4", Eight, false)

  /** For every sequence of draws the loop ends with a bar of exactly four
      beats made only of quarter and eighth notes on `g/4`. When the quarter
      branch is not taken the eighth branch always is: an eighth always fits
      while the bar is not full, so every pass makes progress.

      Note `k` is decided by draw `k`: while a quarter still fits, it is a
      quarter exactly when its draw exceeds 0.5. A note that starts at 7
      eighths is an eighth and consumes no draw. */
  method GenerateRandomBar(draw: nat -> real) returns (notes: seq<Note>, used: nat)
    ensures NotesEighths(notes) == GeneratedEighths
    ensures forall k :: 0 <= k < |notes| ==> notes[k] == QuarterNote || notes[k] == EighthNote
    ensures GeneratedEighths / 2 <= |notes| <= GeneratedEighths
    ensures used <= |notes|
    ensures forall k :: 0 <= k < |notes| ==> (k < used <==> NotesEighths(notes[..k]) + 2 <= GeneratedEighths)
    ensures forall k :: 0 <= k < |notes| && NotesEighths(notes[..k]) + 2 <= GeneratedEighths ==>
      (notes[k] == QuarterNote <==> draw(k) > 0.5)
    ensures forall k :: 0 <= k < |notes| && NotesEighths(notes[..k]) + 2 > GeneratedEighths ==>
      notes[k] == EighthNote
    ensures (forall k :: draw(k) > 0.5) ==> notes == [QuarterNote, QuarterNote, QuarterNote, QuarterNote]
    ensures (forall k :: draw(k) <= 0.5) ==> |notes| == GeneratedEighths
  {
    notes := [];
    used := 0;
    var beats: nat := 0;   // in eighths
    while beats < GeneratedEighths
      invariant Progress(draw, notes, used, beats)
      decreases GeneratedEighths - beats
    {
      notes, used, beats := Pass(draw, notes, used, beats);
    }
    if forall k :: draw(k) > 0.5 {
      assert |notes| == 4;
      assert notes == [QuarterNote, QuarterNote, QuarterNote, QuarterNote];
    }
  }

  /** What holds after every pass of the loop, `beats` eighths in: the
      notes made so far fill `beats` eighths with quarters and eighths, a
      draw was used for every note so far unless the bar is full, draw `k`
      decides note `k`, and the two all-draws extremes are on course. */
  ghost predicate Progress(draw: nat -> real, notes: seq<Note>, used: nat, beats: nat) {
    && beats <= GeneratedEighths
    && NotesEighths(notes) == beats
    && (forall k :: 0 <= k < |notes| ==> notes[k] == QuarterNote || notes[k] == EighthNote)
    && |notes| <= beats <= 2 * |notes|
    && used <= |notes|
    && (beats < GeneratedEighths ==> used == |notes|)
    && DrawsDecide(notes, used, draw)
    && ((forall k :: draw(k) > 0.5) ==>
          beats == 2 * |notes| && forall k :: 0 <= k < |notes| ==> notes[k] == QuarterNote)
    && ((forall k :: draw(k) <= 0.5) ==> beats == |notes|)
  }

  /** One pass of the loop: draw only if a quarter still fits, then add a
      quarter if the draw exceeds 0.5 and an eighth otherwise. */
  method Pass(draw: nat -> real, notes: seq<Note>, used: nat, beats: nat)
    returns (notes': seq<Note>, used': nat, beats': nat)
    requires Progress(draw, notes, used, beats) && beats < GeneratedEighths
    ensures Progress(draw, notes', used', beats')
    ensures beats < beats'
  {
    var quarter := false;
    used' := used;
    if GeneratedEighths - beats >= 2 {
      quarter := draw(used) > 0.5;
      used' := used + 1;
    }
    if quarter {
      QuarterKeepsProgress(draw, notes, used, beats);
      notes' := notes + [QuarterNote];
      beats' := beats + 2;
    } else if GeneratedEighths - beats >= 1 {
      EighthKeepsProgress(draw, notes, used, beats);
      notes' := notes + [EighthNote];
      beats' := beats + 1;
    } else {
      assert false;
    }
  }

  /** A quarter is added when it fits and its draw exceeds 0.5. */
  lemma QuarterKeepsProgress(draw: nat -> real, notes: seq<Note>, used: nat, beats: nat)
    requires Progress(draw, notes, used, beats)
    requires beats + 2 <= GeneratedEighths && draw(used) > 0.5
    ensures Progress(draw, notes + [QuarterNote], used + 1, beats + 2)
  {
    NotesEighthsAppend(notes, QuarterNote);
    DrawsDecideAppend(notes, used, draw, QuarterNote);
  }

  /** An eighth is added when a quarter does not fit, without a draw, or
      when it fits but its draw is at most 0.5. */
  lemma EighthKeepsProgress(draw: nat -> real, notes: seq<Note>, used: nat, beats: nat)
    requires Progress(draw, notes, used, beats) && beats < GeneratedEighths
    requires beats + 2 <= GeneratedEighths ==> draw(used) <= 0.5
    ensures Progress(draw, notes + [EighthNote], if beats + 2 <= GeneratedEighths then used + 1 else used, beats + 1)
  {
    NotesEighthsAppend(notes, EighthNote);
    DrawsDecideAppend(notes, used, draw, EighthNote);
  }

  /** Draw `k` decides note `k`: the draws used are exactly the notes at
      which a quarter still fits, each such note is a quarter exactly when
      its draw exceeds 0.5, and any other note is an eighth. */
  predicate DrawsDecide(notes: seq<Note>, used: nat, draw: nat -> real) {
    && (forall k :: 0 <= k < |notes| ==> (k < used <==> NotesEighths(notes[..k]) + 2 <= GeneratedEighths))
    && (forall k :: 0 <= k < |notes| && NotesEighths(notes[..k]) + 2 <= GeneratedEighths ==>
          (notes[k] == QuarterNote <==> draw(k) > 0.5))
    && (forall k :: 0 <= k < |notes| && NotesEighths(notes[..k]) + 2 > GeneratedEighths ==>
          notes[k] == EighthNote)
  }

  /** One pass of the loop keeps `DrawsDecide`: it draws exactly when a
      quarter fits, and then the draw picks the note; otherwise it emits an
      eighth. */
  lemma DrawsDecideAppend(notes: seq<Note>, used: nat, draw: nat -> real, n: Note)
    requires DrawsDecide(notes, used, draw) && used == |notes|
    requires NotesEighths(notes) + 2 <= GeneratedEighths ==> (n == QuarterNote <==> draw(used) > 0.5)
    requires NotesEighths(notes) + 2 > GeneratedEighths ==> n == EighthNote
    ensures DrawsDecide(notes + [n], if NotesEighths(notes) + 2 <= GeneratedEighths then used + 1 else used, draw)
  {
    var longer := notes + [n];
    assert longer[..|notes|] == notes;
    forall k | 0 <= k < |notes|
      ensures longer[..k] == notes[..k]
    {
    }
  }
}

=== FILE: bar_selector.dfy ===
/**
 Bar selection in `src/App.jsx`: `processNote` turns a cell template into the
 notes the renderer draws, `selectRandomBar` draws one cell of the library and
 `selectRandomBars` fills a whole score.

 `Math.random()` becomes an explicit draw `r` with `0 <= r < 1`, as an exact
 real number.
 */
module BarSelector {
  import opened Notation
  import AppOptions
  import opened Wrappers

  /** `processNote`: keep the template's key and duration, and tag the note
      as a rest exactly when its key is the `rest` placeholder. The source
      compares array references, so the test is on the placeholder, not on
      the key's text. */
  function ProcessNote(t: TemplateNote): (n: Note)
    ensures n.duration == t.duration
    ensures n.isRest <==> t.pitch == Rest
    ensures n.keys == AppOptions.AppVoicing.KeyOf(t.pitch)
  {
    Note(AppOptions.AppVoicing.KeyOf(t.pitch), t.duration, t.pitch == Rest)
  }

  /** The template a rendered note came from, recovered from its key. */
  function Template(n: Note): Option<TemplateNote> {
    var v := AppOptions.AppVoicing;
    if n.keys == v.rest && n.isRest then Some(TemplateNote(Rest, n.duration))
    else if n.keys == v.g && !n.isRest then Some(TemplateNote(G, n.duration))
    else if n.keys == v.e && !n.isRest then Some(TemplateNote(E, n.duration))
    else None
  }

  /** `processNote` loses nothing: the template can be read back from the
      note it produced. */
  lemma ProcessNoteRoundTrip(t: TemplateNote)
    ensures Template(ProcessNote(t)) == Some(t)
  {
  }

  /** For notes that come from the library, the rest tag agrees with the
      key's text, because no other placeholder shares the rest key. */
  lemma RestTagMatchesKey(t: TemplateNote)
    ensures ProcessNote(t).isRest <==> ProcessNote(t).keys == AppOptions.AppVoicing.rest
  {
  }

  /** `cell.map(processNote)`. */
  function ProcessCell(c: Cell): (bar: seq<Note>)
    ensures |bar| == |c|
    ensures forall k :: 0 <= k < |c| ==> bar[k] == ProcessNote(c[k])
    ensures NotesEighths(bar) == CellEighths(c)
  {
    var bar := seq(|c|, k requires 0 <= k < |c| => ProcessNote(c[k]));
    ProcessCellEighths(c, bar, 0);
    bar
  }

  /** Processing keeps every duration, so it keeps the bar's length. */
  lemma {:induction false} ProcessCellEighths(c: Cell, bar: seq<Note>, i: nat)
    requires |bar| == |c| && i <= |c|
    requires forall k :: 0 <= k < |c| ==> bar[k].duration == c[k].duration
    ensures NotesEighthsFrom(bar, i) == CellEighthsFrom(c, i)
    decreases |c| - i
  {
    if i < |c| {
      ProcessCellEighths(c, bar, i + 1);
    }
  }

  /** A draw from `Math.random()`. */
  predicate IsDraw(r: real) {
    0.0 <= r < 1.0
  }

  /** `Math.floor(r * n)`: the index a draw selects among `n` items. */
  function PickIndex(r: real, n: nat): (i: nat)
    requires IsDraw(r) && n > 0
    ensures i < n
    ensures i as real <= r * n as real < i as real + 1.0
  {
    var x := r * n as real;
    MulStrictMonotonic(r, 1.0, n as real);
    x.Floor
  }

  /** Every item owns the slice `[i/n, (i+1)/n)` of the draws, so the
      selection is uniform and every item can be selected. */
  lemma PickIndexUniform(r: real, n: nat, i: nat)
    requires IsDraw(r) && n > 0 && i < n
    ensures PickIndex(r, n) == i <==> i as real / n as real <= r < (i + 1) as real / n as real
  {
    if i as real / n as real <= r < (i + 1) as real / n as real {
      InSliceIsPicked(r, n, i);
    }
    if PickIndex(r, n) == i {
      PickedIsInSlice(r, n, i);
    }
  }

  lemma InSliceIsPicked(r: real, n: nat, i: nat)
    requires IsDraw(r) && n > 0 && i < n
    requires i as real / n as real <= r < (i + 1) as real / n as real
    ensures PickIndex(r, n) == i
  {
    var nr := n as real;
    MulMonotonic(i as real / nr, r, nr);
    MulStrictMonotonic(r, (i + 1) as real / nr, nr);
    DivCancel(i as real, nr);
    DivCancel((i + 1) as real, nr);
    FloorUnique(r * nr, i);
  }

  lemma PickedIsInSlice(r: real, n: nat, i: nat)
    requires IsDraw(r) && n > 0 && i < n
    requires PickIndex(r, n) == i
    ensures i as real / n as real <= r < (i + 1) as real / n as real
  {
    var nr := n as real;
    var x := r * nr;
    assert i as real <= x < i as real + 1.0;
    DivMonotonic(i as real, x, nr);
    DivStrictMonotonic(x, (i + 1) as real, nr);
    MulCancel(r, nr);
  }

  lemma FloorUnique(x: real, i: int)
    requires i as real <= x < i as real + 1.0
    ensures x.Floor == i
  {
  }

  lemma DivCancel(a: real, c: real)
    requires c > 0.0
    ensures (a / c) * c == a
  {
  }

  lemma MulCancel(a: real, c: real)
    requires c > 0.0
    ensures (a * c) / c == a
  {
  }

  lemma MulMonotonic(a: real, b: real, c: real)
    requires a <= b && c > 0.0
    ensures a * c <= b * c
  {
  }

  lemma DivMonotonic(a: real, b: real, c: real)
    requires a <= b && c > 0.0
    ensures a / c <= b / c
  {
  }

  lemma DivStrictMonotonic(a: real, b: real, c: real)
    requires a < b && c > 0.0
    ensures a / c < b / c
  {
  }

  lemma MulStrictMonotonic(a: real, b: real, c: real)
    requires a < b && c > 0.0
    ensures a * c < b * c
  {
  }

  /** A bar the library can produce: some cell after `processNote`. */
  predicate IsLibraryBar(bar: seq<Note>) {
    exists i :: 0 <= i < |AppOptions.Options()| && bar == ProcessCell(AppOptions.Options()[i])
  }

  /** `selectRandomBar`: one uniformly drawn cell, processed note by note.
      It always fills one 3/4 bar. */
  function SelectRandomBar(r: real): (bar: seq<Note>)
    requires IsDraw(r)
    ensures IsLibraryBar(bar)
    ensures NotesEighths(bar) == BarEighths
    ensures 3 <= |bar| <= 5
    ensures forall k :: 1 <= k < |bar| ==> !bar[k].isRest
  {
    var cells := AppOptions.Options();
    var i := PickIndex(r, |cells|);
    assert WellFormedCell(cells[i]);
    ProcessCell(cells[i])
  }

  /** The draw decides the cell: a draw in the `i`-th ninth of `[0, 1)`
      yields exactly cell `i` of the library, processed. */
  lemma SelectRandomBarPicks(r: real, i: nat)
    requires IsDraw(r) && i < |AppOptions.Options()|
    requires i as real / 9.0 <= r < (i + 1) as real / 9.0
    ensures SelectRandomBar(r) == ProcessCell(AppOptions.Options()[i])
  {
    PickIndexUniform(r, |AppOptions.Options()|, i);
  }

  /** A sequence of `n` draws. */
  predicate AreDraws(draws: seq<real>, n: nat) {
    |draws| == n && forall k :: 0 <= k < n ==> IsDraw(draws[k])
  }

  /** `selectRandomBars`: a score of `barCount` bars, bar `k` drawn with the
      `k`-th draw, each a library bar that fills one 3/4 bar. */
  function SelectRandomBars(barCount: nat, draws: seq<real>): (score: seq<seq<Note>>)
    requires AreDraws(draws, barCount)
    ensures |score| == barCount
    ensures forall k :: 0 <= k < barCount ==> score[k] == SelectRandomBar(draws[k])
    ensures forall k :: 0 <= k < barCount ==>
      IsLibraryBar(score[k]) && NotesEighths(score[k]) == BarEighths
  {
    seq(barCount, k requires 0 <= k < barCount => SelectRandomBar(draws[k]))
  }
}

=== FILE: layout.dfy ===
/**
 Where the score effect of `src/App.jsx` draws each bar: bars go four to a
 system (a row of staves), each 220 units wide, systems 120 units apart,
 with a margin of 10 on the left and 40 at the top. Only the integer
 placement is modelled; the drawing is not.
 */
module Layout {
  import opened Wrappers

  const BarsPerSystem: nat := 4
  const BarWidth: nat := 220
  const SystemWidth: nat := BarWidth * BarsPerSystem
  const SystemHeight: nat := 120
  const StartX: nat := 10
  const StartY: nat := 40

  /** Where bar `i` goes. Only the very first bar carries the tempo mark,
      the treble clef and the 3/4 time signature. */
  datatype Placement = Placement(system: nat, column: nat, x: nat, y: nat, decorated: bool)

  /** The drawing surface and the placement of every bar. */
  datatype Canvas = Canvas(width: nat, height: nat, bars: seq<Placement>)

  /** `Math.ceil(n / barsPerSystem)`: systems needed for `n` bars. */
  function TotalSystems(n: nat): (systems: nat)
    ensures systems * BarsPerSystem >= n
    ensures n > 0 ==> (systems - 1) * BarsPerSystem < n
    ensures n == 0 <==> systems == 0
  {
    (n + BarsPerSystem - 1) / BarsPerSystem
  }

  /** Placement of bar `i`. */
  function Place(i: nat): (p: Placement)
    ensures p.column < BarsPerSystem
    ensures p.system * BarsPerSystem + p.column == i
    ensures p.decorated <==> i == 0
  {
    var system := i / BarsPerSystem;
    var column := i % BarsPerSystem;
    Placement(system, column, StartX + column * BarWidth, StartY + system * SystemHeight, i == 0)
  }

  /** The bar drawn at a given position, read back from its coordinates. */
  function BarAt(x: nat, y: nat): nat
    requires x >= StartX && y >= StartY
  {
    ((y - StartY) / SystemHeight) * BarsPerSystem + (x - StartX) / BarWidth
  }

  /** The position of a bar identifies it: reading the coordinates back
      gives the bar's index, so no two bars share a place. */
  lemma PlaceRoundTrip(i: nat)
    ensures Place(i).x >= StartX && Place(i).y >= StartY
    ensures BarAt(Place(i).x, Place(i).y) == i
  {
    var p := Place(i);
    assert (p.x - StartX) == p.column * BarWidth;
    assert (p.y - StartY) == p.system * SystemHeight;
  }

  /** Bars are laid out in reading order: a later bar is on a lower system,
      or on the same system further right. */
  lemma PlaceReadingOrder(i: nat, j: nat)
    requires i < j
    ensures Place(i).y < Place(j).y || (Place(i).y == Place(j).y && Place(i).x < Place(j).x)
  {
    var p, q := Place(i), Place(j);
    if p.system < q.system {
      assert p.system * SystemHeight < q.system * SystemHeight;
    } else {
      assert p.system == q.system;
      assert p.column < q.column;
      assert p.column * BarWidth < q.column * BarWidth;
    }
  }

  /** The score effect: nothing is drawn for an empty score; otherwise the
      surface is resized to hold every system, and bar `i` is placed by
      `Place(i)`. */
  function Render(barCount: nat): (c: Option<Canvas>)
    ensures c.None? <==> barCount == 0
    ensures c.Some? ==> |c.value.bars| == barCount
    ensures c.Some? ==> c.value.width == SystemWidth + 2 * StartX
    ensures c.Some? ==> c.value.height == StartY + TotalSystems(barCount) * SystemHeight
    ensures c.Some? ==> c.value.bars[barCount - 1].y + SystemHeight == c.value.height
    ensures c.Some? ==> forall i :: 0 <= i < barCount ==>
      && c.value.bars[i] == Place(i)
      && StartX + c.value.bars[i].x + BarWidth <= c.value.width
      && c.value.bars[i].y + SystemHeight <= c.value.height
  {
    if barCount == 0 then None
    else
      var height := StartY + TotalSystems(barCount) * SystemHeight;
      var bars := seq(barCount, i requires 0 <= i < barCount => Place(i));
      assert forall i :: 0 <= i < barCount ==> bars[i].y + SystemHeight <= height by {
        forall i | 0 <= i < barCount
          ensures bars[i].y + SystemHeight <= height
        {
          var s := bars[i].system;
          assert s < TotalSystems(barCount);
          assert (s + 1) * SystemHeight <= TotalSystems(barCount) * SystemHeight;
        }
      }
      Some(Canvas(SystemWidth + StartX * 2, height, bars))
  }
}

=== FILE: metronome.dfy ===
/**
 The tempo constants and the metronome of `src/App.jsx`, in integer
 milliseconds. At the fixed tempo of 120 beats per minute the source's
 floating-point values are whole numbers: 500 ms per beat and 1500 ms per
 bar.
 */
module Metronome {
  import opened Notation

  /** Beats per minute. */
  const Tempo: nat := 120

  /** `(60 / tempo) * 1000`: milliseconds per beat. */
  const Interval: nat := 60000 / Tempo

  /** `secondsPerBeat * beatsPerBar * 1000`: milliseconds per bar. */
  const BarDuration: nat := Interval * BeatsPerBar

  /** The integer constants equal the source's floating-point formulas
      exactly, so nothing is lost by working in whole milliseconds. */
  lemma TimingIsExact()
    ensures (60.0 / Tempo as real) * 1000.0 == Interval as real
    ensures (60.0 / Tempo as real) * BeatsPerBar as real * 1000.0 == BarDuration as real
    ensures Interval == 500 && BarDuration == 1500
  {
  }

  /** One click of the metronome: its time from the start of the bar and
      whether it is the higher-pitched first beat. */
  datatype Click = Click(offsetMs: nat, accent: bool)

  /** `playMethronomeBar`: an accented click now and two plain clicks one
      and two beats later. */
  function MetronomeBar(interval: nat): (clicks: seq<Click>)
    requires interval > 0
    ensures |clicks| == BeatsPerBar
    ensures forall j, k :: 0 <= j < k < |clicks| ==> clicks[j].offsetMs < clicks[k].offsetMs
    ensures forall k :: 0 <= k < |clicks| ==> (clicks[k].accent <==> k == 0)
    ensures forall k :: 0 <= k < |clicks| ==> clicks[k].offsetMs < interval * BeatsPerBar
  {
    [Click(0, true), Click(interval, false), Click(interval * 2, false)]
  }

  /** The clicks of one bar, moved `start` milliseconds later. */
  function Shift(clicks: seq<Click>, start: nat): (moved: seq<Click>)
    ensures |moved| == |clicks|
    ensures forall k :: 0 <= k < |clicks| ==>
      moved[k] == Click(clicks[k].offsetMs + start, clicks[k].accent)
  {
    seq(|clicks|, k requires 0 <= k < |clicks| => Click(clicks[k].offsetMs + start, clicks[k].accent))
  }

  /** The clicks heard during the first `bars` bars: one metronome bar at
      start and one more every `interval * beatsPerBar` milliseconds, as the
      `setInterval` of `onStart` repeats it. */
  function ClickTrack(bars: nat, interval: nat): (track: seq<Click>)
    requires interval > 0
    ensures |track| == bars * BeatsPerBar
    ensures forall n :: 0 <= n < |track| ==> track[n].offsetMs < bars * (interval * BeatsPerBar)
  {
    if bars == 0 then []
    else ClickTrack(bars - 1, interval) + Shift(MetronomeBar(interval), (bars - 1) * (interval * BeatsPerBar))
  }

  /** Click `k` of a bar sounds `k` beats after the bar starts. */
  lemma BarClick(interval: nat, k: nat)
    requires interval > 0 && k < BeatsPerBar
    ensures MetronomeBar(interval)[k] == Click(k * interval, k == 0)
  {
    var clicks := MetronomeBar(interval);
    if k == 0 {
      assert clicks[k] == Click(0, true);
    } else if k == 1 {
      assert clicks[k] == Click(interval, false);
    } else {
      assert clicks[k] == Click(interval * 2, false);
    }
  }

  /** Beat `k` of bar `m` is beat `m * beatsPerBar + k` of the track. */
  lemma PulseArithmetic(m: nat, k: nat, interval: nat)
    requires k < BeatsPerBar
    ensures (m * BeatsPerBar + k) * interval == k * interval + m * (interval * BeatsPerBar)
    ensures (m * BeatsPerBar + k) % BeatsPerBar == k
  {
    calc {
      (m * BeatsPerBar + k) * interval;
      m * BeatsPerBar * interval + k * interval;
      { assert m * BeatsPerBar * interval == m * (interval * BeatsPerBar); }
      k * interval + m * (interval * BeatsPerBar);
    }
  }

  /** The repeated bars join into one steady pulse: click `n` sounds at
      `n * interval`, and it is accented exactly when it starts a bar. */
  lemma {:induction false} ClickTrackIsSteadyPulse(bars: nat, interval: nat)
    requires interval > 0
    ensures |ClickTrack(bars, interval)| == bars * BeatsPerBar
    ensures forall n :: 0 <= n < |ClickTrack(bars, interval)| ==>
      ClickTrack(bars, interval)[n] == Click(n * interval, n % BeatsPerBar == 0)
  {
    if bars > 0 {
      var m := bars - 1;
      ClickTrackIsSteadyPulse(m, interval);
      var prev := ClickTrack(m, interval);
      var start := m * (interval * BeatsPerBar);
      var last := Shift(MetronomeBar(interval), start);
      var track := prev + last;
      assert track == ClickTrack(bars, interval);
      assert |track| == m * BeatsPerBar + BeatsPerBar;
      assert m * BeatsPerBar + BeatsPerBar == bars * BeatsPerBar;
      forall n | 0 <= n < |track|
        ensures track[n] == Click(n * interval, n % BeatsPerBar == 0)
      {
        if n < |prev| {
          assert track[n] == prev[n];
        } else {
          var k := n - |prev|;
          assert n == m * BeatsPerBar + k;
          BarClick(interval, k);
          PulseArithmetic(m, k, interval);
          assert track[n] == last[k];
          assert last[k] == Click(k * interval + start, k == 0);
        }
      }
    }
  }
}

=== FILE: notation.dfy ===
/**
 The vocabulary shared by the pattern library, the bar selector and the bar
 generator: pitch placeholders, VexFlow duration codes and notes.

 Durations are measured in whole eighth notes, so a 3/4 bar is 6 eighths and
 every duration the trainer writes is an exact integer.
 */
module Notation {

  /** Beats in one bar: the trainer is in 3/4. */
  const BeatsPerBar: nat := 3

  /** Eighth notes in one quarter-note beat. */
  const EighthsPerBeat: nat := 2

  /** Eighth notes in one 3/4 bar. */
  const BarEighths: nat := BeatsPerBar * EighthsPerBeat

  /** The three symbolic pitches a cell template is written with. */
  datatype Placeholder = G | E | Rest

  /** The staff key each placeholder stands for in one source file. */
  datatype Voicing = Voicing(g: string, e: string, rest: string)
  {
    function KeyOf(p: Placeholder): string {
      match p
      case G => g
      case E => e
      case Rest => rest
    }

    /** No two placeholders share a key. */
    predicate Distinct() {
      g != e && g != rest && e != rest
    }
  }

  /** The VexFlow duration codes the trainer writes: `"q"` and `"4"` are
      both a quarter note, `"8"` is an eighth note. */
  datatype Duration = Q | Four | Eight
  {
    /** Length in eighth notes. */
    function Eighths(): nat {
      match this
      case Q => 2
      case Four => 2
      case Eight => 1
    }
  }

  /** One `[placeholder, durationCode]` pair of a cell template. */
  datatype TemplateNote = TemplateNote(pitch: Placeholder, duration: Duration)

  /** Shorthand for writing the cell libraries. */
  function N(p: Placeholder, d: Duration): TemplateNote { TemplateNote(p, d) }

  /** A one-bar rhythmic cell of the library. */
  type Cell = seq<TemplateNote>

  /** A note as handed to the notation renderer: `{keys, duration, type?}`,
      where `isRest` stands for the presence of `type: "r"`. */
  datatype Note = Note(keys: string, duration: Duration, isRest: bool)

  /** Length in eighths of the events of cell `c` from index `i` on. */
  function CellEighthsFrom(c: Cell, i: nat): nat
    decreases |c| - i
  {
    if i >= |c| then 0 else c[i].duration.Eighths() + CellEighthsFrom(c, i + 1)
  }

  /** Length of a cell in eighths. */
  function CellEighths(c: Cell): nat {
    CellEighthsFrom(c, 0)
  }

  /** Length in eighths of the notes of a bar from index `i` on. */
  function NotesEighthsFrom(notes: seq<Note>, i: nat): nat
    decreases |notes| - i
  {
    if i >= |notes| then 0 else notes[i].duration.Eighths() + NotesEighthsFrom(notes, i + 1)
  }

  /** Length of a rendered bar in eighths. */
  function NotesEighths(notes: seq<Note>): nat {
    NotesEighthsFrom(notes, 0)
  }

  /** Appending a note lengthens the bar by exactly that note's duration. */
  lemma {:induction false} NotesEighthsFromAppend(notes: seq<Note>, n: Note, i: nat)
    requires i <= |notes|
    ensures NotesEighthsFrom(notes + [n], i) == NotesEighthsFrom(notes, i) + n.duration.Eighths()
    decreases |notes| - i
  {
    if i < |notes| {
      NotesEighthsFromAppend(notes, n, i + 1);
    }
  }

  lemma NotesEighthsAppend(notes: seq<Note>, n: Note)
    ensures NotesEighths(notes + [n]) == NotesEighths(notes) + n.duration.Eighths()
  {
    NotesEighthsFromAppend(notes, n, 0);
  }

  /** A cell fills exactly one 3/4 bar. */
  predicate FillsBar(c: Cell) {
    CellEighths(c) == BarEighths
  }

  /** A rest appears, if at all, only as the first event of the cell. */
  predicate RestsOnlyFirst(c: Cell) {
    forall k :: 1 <= k < |c| ==> c[k].pitch != Rest
  }

  /** The shape every library cell has: one full bar of 3 to 5 events,
      rests only at the start. */
  predicate WellFormedCell(c: Cell) {
    && FillsBar(c)
    && 3 <= |c| <= 5
    && RestsOnlyFirst(c)
  }
}

=== FILE: precount.dfy ===
/**
 The count-in of `src/App.jsx`: `onStart` sets `preCount` to 1, and an
 effect that runs whenever `preCount` changes either clears it, once it has
 passed `beatsPerBar`, or schedules a timeout that adds one after a beat.

 The shown value 0 stands for both falsy values the source uses: the initial
 `0` and the cleared `""`. `pending` records the one timeout in flight.
 */
module PreCount {
  import opened Notation
  import opened Metronome

  datatype PreCount = PreCount(shown: nat, pending: bool)

  /** The state before any start: nothing shown, no timeout. */
  const Idle: PreCount := PreCount(0, false)

  /** A state the count-in can be in: either a count between 1 and
      `beatsPerBar` is shown and its timeout is pending, or nothing is shown
      and nothing is pending. */
  predicate Valid(s: PreCount) {
    if s.pending then 1 <= s.shown <= BeatsPerBar else s.shown == 0
  }

  /** The effect on `preCount`: nothing for a falsy value, clearing once it
      exceeds `beatsPerBar`, otherwise one more timeout of a beat. */
  function React(value: nat): (s: PreCount)
    ensures Valid(s)
    ensures s.pending ==> s.shown == value
    ensures s.shown == 0 <==> value == 0 || value > BeatsPerBar
  {
    if value == 0 then Idle
    else if value > BeatsPerBar then Idle
    else PreCount(value, true)
  }

  /** `setPreCount(1)` in `onStart`. */
  function Start(): (s: PreCount)
    ensures s == PreCount(1, true)
  {
    React(1)
  }

  /** The beat timeout firing: `prev + 1`, then the effect reacts. Without a
      pending timeout nothing happens. The value written is at most
      `beatsPerBar + 1`, and that value is cleared at once. */
  function Beat(s: PreCount): (t: PreCount)
    requires Valid(s)
    ensures Valid(t)
    ensures s.pending && s.shown < BeatsPerBar ==> t == PreCount(s.shown + 1, true)
    ensures s.pending && s.shown == BeatsPerBar ==> t == Idle
    ensures !s.pending ==> t == s
  {
    if s.pending then React(s.shown + 1) else s
  }

  /** The count-in after `k` beats. */
  function After(k: nat): (s: PreCount)
    ensures Valid(s)
    ensures s.shown <= BeatsPerBar
    ensures k > 0 && s.pending ==> s.shown > 1
  {
    if k == 0 then Start() else Beat(After(k - 1))
  }

  /** The count-in shows 1, 2, ..., `beatsPerBar`, one per beat, and is
      cleared for good at beat `beatsPerBar`. */
  lemma {:induction false} CountInTrace(k: nat)
    ensures After(k) == if k < BeatsPerBar then PreCount(k + 1, true) else Idle
  {
    if k > 0 {
      CountInTrace(k - 1);
    }
  }

  /** The count-in is cleared exactly one bar after the start: `beatsPerBar`
      beats of `interval` milliseconds make `barDuration`. */
  lemma CountInLastsOneBar()
    ensures BeatsPerBar * Interval == BarDuration
    ensures forall k :: 0 <= k < BeatsPerBar ==> After(k).shown == k + 1
    ensures After(BarDuration / Interval) == Idle
  {
    forall k | 0 <= k < BeatsPerBar ensures After(k).shown == k + 1 {
      CountInTrace(k);
    }
    CountInTrace(BarDuration / Interval);
  }
}

=== FILE: transport.dfy ===
/**
 Start and stop in `src/App.jsx`, as a state machine over the component's
 `playing` and `intervalIds` state, the intervals the browser is actually
 running, and the score.

 Timers are events: `DeferredArm` is the `barDuration` timeout of `onStart`
 firing and registering the regenerate interval, `Regenerate` is that
 interval firing. The browser runs timeouts independently of the buttons,
 so `Stop` may come before `DeferredArm`; both orders are modelled.

 `Step` is the machine as written. `FixedStep` differs only in that `Stop`
 also cancels the pending `barDuration` timeout.
 */
module Transport {
  import opened Notation
  import opened Metronome
  import opened BarSelector

  datatype TimerKind = MetronomeTimer | RegenerateTimer

  /** A running `setInterval`: its id, what it calls and its period. */
  datatype Timer = Timer(id: nat, kind: TimerKind, periodMs: nat)

  datatype State = State(
    playing: bool,
    intervalIds: seq<nat>,    // the `intervalIds` state of the component
    live: seq<Timer>,         // the intervals the browser runs
    pendingArms: nat,         // `barDuration` timeouts of `onStart` not yet fired
    nextId: nat,              // the id the browser hands out next
    barCount: nat,
    score: seq<seq<Note>>)

  datatype Event =
    | Start                          // the "Iniciar" button
    | Stop                           // the "Detener" button
    | DeferredArm                    // the `barDuration` timeout of `onStart` fires
    | Regenerate(draws: seq<real>)   // a regenerate interval fires
    | GenerateNew(draws: seq<real>)  // the "Generar Nuevo" button

  /** Period of the metronome interval: `interval * beatsPerBar`. */
  const MetronomePeriod: nat := Interval * BeatsPerBar

  /** Period of the regenerate interval: `barDuration * barCount`. */
  function RegeneratePeriod(barCount: nat): nat {
    BarDuration * barCount
  }

  /** The component after mounting: stopped, no timers, and a score drawn
      by the mount effect. */
  function Init(barCount: nat, draws: seq<real>): (s: State)
    requires AreDraws(draws, barCount)
    ensures !s.playing && s.intervalIds == [] && s.live == [] && s.pendingArms == 0
    ensures |s.score| == barCount
  {
    State(false, [], [], 0, 1, barCount, SelectRandomBars(barCount, draws))
  }

  function IdsOf(timers: seq<Timer>): (ids: seq<nat>)
    ensures |ids| == |timers|
    ensures forall k :: 0 <= k < |timers| ==> ids[k] == timers[k].id
  {
    seq(|timers|, k requires 0 <= k < |timers| => timers[k].id)
  }

  /** `clearInterval` on every id of `ids`. */
  function Cancel(timers: seq<Timer>, ids: seq<nat>): (kept: seq<Timer>)
    ensures forall t :: t in kept <==> t in timers && t.id !in ids
    ensures (forall k :: 0 <= k < |timers| ==> timers[k].id in ids) ==> kept == []
  {
    if |timers| == 0 then []
    else if timers[0].id in ids then Cancel(timers[1..], ids)
    else [timers[0]] + Cancel(timers[1..], ids)
  }

  /** How many of the running intervals are of the given kind. */
  function CountKind(timers: seq<Timer>, kind: TimerKind): nat {
    if |timers| == 0 then 0
    else CountKind(timers[..|timers| - 1], kind) + (if timers[|timers| - 1].kind == kind then 1 else 0)
  }

  lemma CountKindAppend(timers: seq<Timer>, t: Timer, kind: TimerKind)
    ensures CountKind(timers + [t], kind) == CountKind(timers, kind) + (if t.kind == kind then 1 else 0)
  {
    assert (timers + [t])[..|timers|] == timers;
  }

  predicate HasRegenerateTimer(timers: seq<Timer>) {
    CountKind(timers, RegenerateTimer) > 0
  }

  /** The draws an event carries fit a score of `barCount` bars. */
  predicate EventFits(e: Event, barCount: nat) {
    (e.Regenerate? || e.GenerateNew?) ==> AreDraws(e.draws, barCount)
  }

  /** A score of library bars of the configured length. */
  predicate ScoreOk(s: State) {
    |s.score| == s.barCount && forall k :: 0 <= k < |s.score| ==> IsLibraryBar(s.score[k])
  }

  /** The bookkeeping both machines keep: the ids in the component's state
      are exactly the running intervals, in registration order; the
      metronome repeats every bar and a regenerate interval every
      `barCount` bars; the score is well formed. */
  predicate Bookkeeping(s: State) {
    && IdsOf(s.live) == s.intervalIds
    && (forall k :: 0 <= k < |s.live| ==>
          s.live[k].periodMs == (if s.live[k].kind == MetronomeTimer then MetronomePeriod
                                 else RegeneratePeriod(s.barCount)))
    && ScoreOk(s)
  }

  /** The timers that `start` arms, shared by both machines. */
  function Started(s: State): State {
    s.(playing := true,
       intervalIds := s.intervalIds + [s.nextId],
       live := s.live + [Timer(s.nextId, MetronomeTimer, MetronomePeriod)],
       pendingArms := s.pendingArms + 1,
       nextId := s.nextId + 1)
  }

  /** The deferred timeout firing: `setInterval(selectRandomBars,
      barDuration * barCount)` and its id appended to `intervalIds`. */
  function Armed(s: State): State
    requires s.pendingArms > 0
  {
    s.(intervalIds := s.intervalIds + [s.nextId],
       live := s.live + [Timer(s.nextId, RegenerateTimer, RegeneratePeriod(s.barCount))],
       pendingArms := s.pendingArms - 1,
       nextId := s.nextId + 1)
  }

  /** The source's machine. A button that is not shown cannot be pressed,
      and a timer that does not exist cannot fire: such events change
      nothing. */
  function Step(s: State, e: Event): (t: State)
    requires EventFits(e, s.barCount)
    ensures t.barCount == s.barCount
    ensures e == Start && !s.playing ==> t.playing && t.pendingArms == s.pendingArms + 1
    ensures e == Start && !s.playing ==>
      && t.intervalIds == s.intervalIds + [s.nextId]
      && t.live == s.live + [Timer(s.nextId, MetronomeTimer, MetronomePeriod)]
      && t.score == s.score
    ensures e == Stop && s.playing ==>
      && !t.playing && t.intervalIds == []
      && (forall x :: x in t.live <==> x in s.live && x.id !in s.intervalIds)
      && t.pendingArms == s.pendingArms
    ensures e == DeferredArm && s.pendingArms > 0 ==>
      && t.playing == s.playing
      && t.pendingArms == s.pendingArms - 1
      && t.live == s.live + [Timer(s.nextId, RegenerateTimer, RegeneratePeriod(s.barCount))]
    ensures t.score != s.score ==>
      (e.Regenerate? && HasRegenerateTimer(s.live)) || (e.GenerateNew? && !s.playing)
    ensures t.score != s.score ==> |t.score| == s.barCount
    ensures (e.Regenerate? || e.GenerateNew?) ==> t.(score := s.score) == s
  {
    match e
    case Start => if s.playing then s else Started(s)
    case DeferredArm => if s.pendingArms == 0 then s else Armed(s)
    case Stop =>
      if !s.playing then s
      else s.(playing := false, intervalIds := [], live := Cancel(s.live, s.intervalIds))
    case Regenerate(draws) =>
      if HasRegenerateTimer(s.live) then s.(score := SelectRandomBars(s.barCount, draws)) else s
    case GenerateNew(draws) =>
      if s.playing then s else s.(score := SelectRandomBars(s.barCount, draws))
  }

  /** Every event keeps the bookkeeping, and `Stop` always leaves the
      component stopped with no interval ids and no interval running. A
      regenerate interval appears only when the deferred timeout fires. */
  lemma StepKeepsBookkeeping(s: State, e: Event)
    requires Bookkeeping(s) && EventFits(e, s.barCount)
    ensures Bookkeeping(Step(s, e))
    ensures e == Stop && s.playing ==> !Step(s, e).playing && Step(s, e).intervalIds == [] && Step(s, e).live == []
    ensures e != DeferredArm && !HasRegenerateTimer(s.live) ==> !HasRegenerateTimer(Step(s, e).live)
  {
    var t := Step(s, e);
    match e
    case Stop =>
      if s.playing {
        assert forall k :: 0 <= k < |s.live| ==> s.live[k].id == s.intervalIds[k];
      }
    case Start =>
      if !s.playing {
        assert IdsOf(t.live) == IdsOf(s.live) + [s.nextId];
      }
    case DeferredArm =>
      if s.pendingArms > 0 {
        assert IdsOf(t.live) == IdsOf(s.live) + [s.nextId];
      }
    case Regenerate(_) =>
    case GenerateNew(_) =>
  }

  /** Pressing Stop before the `barDuration` timeout fires: the timeout
      still fires, registers the regenerate interval after the stop, and
      the score keeps being redrawn although nothing is playing. */
  lemma StopBeforeArmLeaks(barCount: nat, draws: seq<real>, redraws: seq<real>)
    requires AreDraws(draws, barCount) && AreDraws(redraws, barCount)
    ensures var s := Step(Step(Step(Init(barCount, draws), Start), Stop), DeferredArm);
      && !s.playing
      && s.intervalIds == IdsOf(s.live)
      && |s.live| == 1
      && s.live[0].kind == RegenerateTimer
      && s.live[0].periodMs == RegeneratePeriod(barCount)
      && Step(s, Regenerate(redraws)).score == SelectRandomBars(barCount, redraws)
  {
    var s0 := Init(barCount, draws);
    var score := s0.score;
    var metronome := Timer(1, MetronomeTimer, MetronomePeriod);
    var regenerate := Timer(2, RegenerateTimer, RegeneratePeriod(barCount));
    var s1 := Step(s0, Start);
    assert s1 == State(true, [1], [metronome], 1, 2, barCount, score);
    var s2 := Step(s1, Stop);
    assert s2 == State(false, [], [], 1, 2, barCount, score);
    var s3 := Step(s2, DeferredArm);
    assert s3 == State(false, [2], [regenerate], 0, 3, barCount, score);
    CountKindAppend([], regenerate, RegenerateTimer);
    assert [] + [regenerate] == s3.live;
  }


  /** The intended machine: `Stop` also clears the pending `barDuration`
      timeout. */
  function FixedStep(s: State, e: Event): (t: State)
    requires EventFits(e, s.barCount)
    ensures t.barCount == s.barCount
    ensures e != Stop ==> t == Step(s, e)
    ensures e == Stop ==> t == Step(s, e).(pendingArms := if s.playing then 0 else s.pendingArms)
    ensures e == Stop && s.playing ==> !t.playing && t.intervalIds == [] && t.pendingArms == 0
  {
    match e
    case Stop =>
      if !s.playing then s
      else s.(playing := false, intervalIds := [], live := Cancel(s.live, s.intervalIds), pendingArms := 0)
    case _ => Step(s, e)
  }

  /** What "stopped" means: no interval id, no running interval and no
      pending timeout that could start one. */
  predicate Quiet(s: State) {
    s.intervalIds == [] && s.live == [] && s.pendingArms == 0
  }

  /** The intended machine's invariant: stopped means quiet, and while
      playing there is exactly one metronome interval and exactly one of
      the deferred timeout and the regenerate interval. */
  predicate FixedInvariant(s: State) {
    && Bookkeeping(s)
    && (!s.playing ==> Quiet(s))
    && (s.playing ==>
          && CountKind(s.live, MetronomeTimer) == 1
          && s.pendingArms + CountKind(s.live, RegenerateTimer) == 1)
  }

  /** Every event keeps the intended invariant; so, once stopped, a
      regenerate interval never fires and the score changes only through
      the "Generar Nuevo" button. */
  lemma FixedStepKeepsInvariant(s: State, e: Event)
    requires FixedInvariant(s) && EventFits(e, s.barCount)
    ensures FixedInvariant(FixedStep(s, e))
    ensures !FixedStep(s, e).playing ==> !HasRegenerateTimer(FixedStep(s, e).live)
    ensures !s.playing && !e.GenerateNew? ==> FixedStep(s, e).score == s.score
  {
    match e
    case Start => FixedStartKeepsInvariant(s);
    case DeferredArm => FixedArmKeepsInvariant(s);
    case _ => FixedOtherKeepsInvariant(s, e);
  }

  /** Start arms one metronome interval and one deferred timeout. */
  lemma FixedStartKeepsInvariant(s: State)
    requires FixedInvariant(s)
    ensures FixedInvariant(FixedStep(s, Start))
  {
    StepKeepsBookkeeping(s, Start);
    if !s.playing {
      CountKindAppend(s.live, Timer(s.nextId, MetronomeTimer, MetronomePeriod), MetronomeTimer);
      CountKindAppend(s.live, Timer(s.nextId, MetronomeTimer, MetronomePeriod), RegenerateTimer);
    }
  }

  /** The deferred timeout trades itself for a regenerate interval. */
  lemma FixedArmKeepsInvariant(s: State)
    requires FixedInvariant(s)
    ensures FixedInvariant(FixedStep(s, DeferredArm))
  {
    StepKeepsBookkeeping(s, DeferredArm);
    if s.pendingArms > 0 {
      var t := Timer(s.nextId, RegenerateTimer, RegeneratePeriod(s.barCount));
      CountKindAppend(s.live, t, MetronomeTimer);
      CountKindAppend(s.live, t, RegenerateTimer);
    }
  }

  /** Stop, a regenerate interval firing and "Generar Nuevo". */
  lemma FixedOtherKeepsInvariant(s: State, e: Event)
    requires FixedInvariant(s) && EventFits(e, s.barCount) && !e.Start? && !e.DeferredArm?
    ensures FixedInvariant(FixedStep(s, e))
    ensures !s.playing && !e.GenerateNew? ==> FixedStep(s, e).score == s.score
  {
    StepKeepsBookkeeping(s, e);
  }

  /** Every event of the sequence carries draws that fit a score of
      `barCount` bars. */
  predicate DrawsFit(events: seq<Event>, barCount: nat) {
    forall k :: 0 <= k < |events| ==> EventFits(events[k], barCount)
  }

  /** The intended machine after a sequence of events. */
  function FixedRun(s: State, events: seq<Event>): State
    requires DrawsFit(events, s.barCount)
    decreases |events|
  {
    if |events| == 0 then s
    else FixedRun(FixedStep(s, events[0]), events[1..])
  }

  /** Whatever the order of button presses and timer firings, the intended
      machine keeps its invariant: a stopped trainer runs no timer. */
  lemma {:induction false} FixedRunStaysQuiet(barCount: nat, draws: seq<real>, events: seq<Event>)
    requires AreDraws(draws, barCount) && DrawsFit(events, barCount)
    ensures FixedInvariant(FixedRun(Init(barCount, draws), events))
    ensures !FixedRun(Init(barCount, draws), events).playing ==>
      Quiet(FixedRun(Init(barCount, draws), events))
  {
    FixedRunKeepsInvariant(Init(barCount, draws), events);
  }

  lemma {:induction false} FixedRunKeepsInvariant(s: State, events: seq<Event>)
    requires FixedInvariant(s) && DrawsFit(events, s.barCount)
    ensures FixedInvariant(FixedRun(s, events))
    decreases |events|
  {
    if |events| > 0 {
      FixedStepKeepsInvariant(s, events[0]);
      var t := FixedStep(s, events[0]);
      assert DrawsFit(events[1..], t.barCount) by {
        forall k | 0 <= k < |events[1..]|
          ensures EventFits(events[1..][k], t.barCount)
        {
          assert events[1..][k] == events[k + 1];
        }
      }
      FixedRunKeepsInvariant(t, events[1..]);
    }
  }
}

=== FILE: use_options.dfy ===
/**
 The cell catalogue returned by the `useOptions` hook (`src/useOptions.js`):
 the nine cells of `src/App.jsx` plus one more variation that opens with a
 rest, written with the placeholders `g = ["e/5"]`, `e = ["e/4"]` and
 `rest = ["g/4"]`. The cells with sixteenth notes are commented out in the
 source and are not part of the catalogue.
 */
module UseOptions {
  import opened Notation
  import AppOptions

  /** Keys of the placeholders in `src/useOptions.js`. */
  const HookVoicing: Voicing := Voicing("e/5", "e/4", "g/4")

  /** The memoised `options` array, in source order: a non-empty catalogue
      of cells, each of which fills one 3/4 bar. */
  function Options(): (cells: seq<Cell>)
    ensures |cells| == 10
    ensures forall i :: 0 <= i < |cells| ==> FillsBar(cells[i])
    ensures forall i :: 0 <= i < |cells| ==> 3 <= |cells[i]| <= 5
    ensures forall i :: 0 <= i < |cells| ==> RestsOnlyFirst(cells[i])
  {
    [
      // base
      [N(G, Q), N(E, Eight), N(G, Eight), N(E, Q)],
      [N(G, Q), N(E, Q), N(E, Q)],
      // two eighths at the start
      [N(G, Eight), N(G, Eight), N(E, Eight), N(G, Eight), N(E, Q)],
      [N(G, Eight), N(E, Eight), N(E, Eight), N(G, Eight), N(E, Q)],
      // two eighths at the end
      [N(G, Q), N(E, Eight), N(G, Eight), N(E, Eight), N(E, Eight)],
      [N(G, Q), N(E, Eight), N(G, Eight), N(E, Eight), N(G, Eight)],
      // rest at the start
      [N(Rest, Eight), N(G, Eight), N(E, Eight), N(G, Eight), N(E, Q)],
      [N(Rest, Eight), N(E, Eight), N(E, Eight), N(G, Eight), N(E, Q)],
      // variations
      [N(G, Four), N(E, Four), N(E, Eight), N(G, Eight)],
      [N(Rest, Eight), N(G, Eight), N(E, Four), N(E, Four)]
    ]
  }

  /** The hook's placeholders have pairwise distinct keys, and so do the
      ones in `src/App.jsx`; a key therefore identifies its placeholder. */
  lemma VoicingsDistinct()
    ensures HookVoicing.Distinct() && AppOptions.AppVoicing.Distinct()
    ensures forall p, q :: HookVoicing.KeyOf(p) == HookVoicing.KeyOf(q) ==> p == q
    ensures forall p, q :: AppOptions.AppVoicing.KeyOf(p) == AppOptions.AppVoicing.KeyOf(q) ==> p == q
  {
  }

  /** The hook extends the library of `src/App.jsx`: its first nine cells
      are the same templates, and only the last one is new. */
  lemma ExtendsAppOptions()
    ensures Options()[..9] == AppOptions.Options()
    ensures Options()[9][0].pitch == Rest
  {
  }
}

=== FILE: utils.dfy ===
/**
 The helpers of `src/utils.js`: `repeat` and `formatChacareraOption`.
 */
module Utils {
  import opened Wrappers

  /** The largest length a JavaScript array can have, 2^32 - 1. */
  const MaxArrayLength: int := 0xFFFF_FFFF

  /** The `RangeError` that `new Array(n)` throws for an invalid length. */
  datatype RangeError = InvalidArrayLength(length: int)

  /** `repeat(arr, times)` for an integer `times`: `times + 1` copies of
      `arr`. A length that is negative or too large makes `new Array` throw. */
  function Repeat<T>(arr: seq<T>, times: int): (r: Result<seq<seq<T>>, RangeError>)
    ensures r.Success? <==> 0 <= times + 1 <= MaxArrayLength
    ensures r.Failure? ==> r.error == InvalidArrayLength(times + 1)
    ensures r.Success? ==> |r.value| == times + 1
    ensures r.Success? ==> forall k :: 0 <= k < |r.value| ==> r.value[k] == arr
  {
    var length := times + 1;
    if length < 0 || length > MaxArrayLength then Failure(InvalidArrayLength(length))
    else Success(seq(length, _ => arr))
  }

  /** Zero repetitions still give the one original copy. */
  lemma RepeatZero<T>(arr: seq<T>)
    ensures Repeat(arr, 0) == Success([arr])
  {
    var r := Repeat(arr, 0);
    assert r.value == [arr];
  }

  predicate IsAscii(s: string) {
    forall k :: 0 <= k < |s| ==> s[k] < 128 as char
  }

  /** `toUpperCase` on one ASCII character. */
  function Upper(c: char): (u: char)
    ensures 'a' <= c <= 'z' ==> u as int == c as int - 32
    ensures !('a' <= c <= 'z') ==> u == c
    ensures c < 128 as char ==> u < 128 as char
    ensures !('a' <= u <= 'z') || u == c
  {
    if 'a' <= c <= 'z' then (c as int - 32) as char else c
  }

  /** `.replace(/_/g, " ")`. */
  function SpaceUnderscores(s: string): (r: string)
    ensures |r| == |s|
    ensures forall k :: 0 <= k < |s| ==> r[k] == (if s[k] == '_' then ' ' else s[k])
  {
    if |s| == 0 then ""
    else [if s[0] == '_' then ' ' else s[0]] + SpaceUnderscores(s[1..])
  }

  /** `formatChacareraOption`: the first character in upper case, and
      every later underscore turned into a space. */
  function FormatChacareraOption(s: string): (r: string)
    requires IsAscii(s)
    ensures |r| == |s|
    ensures IsAscii(r)
    ensures |s| > 0 ==> r[0] == Upper(s[0])
    ensures forall k :: 1 <= k < |s| ==> r[k] == (if s[k] == '_' then ' ' else s[k])
    ensures forall k :: 1 <= k < |r| ==> r[k] != '_'
  {
    if |s| == 0 then "" else [Upper(s[0])] + SpaceUnderscores(s[1..])
  }

  /** Formatting a formatted name changes nothing. */
  lemma FormatIdempotent(s: string)
    requires IsAscii(s)
    ensures FormatChacareraOption(FormatChacareraOption(s)) == FormatChacareraOption(s)
  {
    var r := FormatChacareraOption(s);
    var rr := FormatChacareraOption(r);
    if |s| > 0 {
      assert rr[0] == Upper(Upper(s[0]));
    }
  }
}

=== FILE: wrappers.dfy ===
/** Failure-carrying result types shared by the modules of this model. */
module Wrappers {

  /** A value that may be absent. */
  datatype Option<+T> = None | Some(value: T)

  /** Either a value or the error the JavaScript runtime would throw. */
  datatype Result<+T, +E> = Success(value: T) | Failure(error: E)
}
